=== FILE: README.md ===
# Review-analysis site: handlers and page rules in Dafny

This project models the behaviour of a hotel-review analysis site: two
serverless endpoints and the page script of its marketing site.

- **Analyze endpoint** (`Analyze`). It serves a stored analysis for a hotel
  when one exists. Otherwise it asks the LLM completion service for one and
  takes the JSON object out of the reply (`JsonExtract`). It parses the
  object, stores it in `hotel_analyses` and logs the serve in
  `user_analyses`. The two tables are the fields of the class
  `AnalysisCache`. The handler is its method `Serve`.
- **Ask endpoint** (`Ask`). It checks a follow-up question and condenses
  the client's analysis into a summary: rating, value score, first three
  issues and first three strengths. It forwards the question to the
  completion service once and returns the text of the reply.
- **Page script** (`HeaderScroll`, `MobileMenu`, `Library`):
  - the header's scroll state machine;
  - the burger/overlay menu and in-page anchor links;
  - the deviation verdict, score colour and recommendation snippet on the
    library cards.

Foreign services are parameters of the handlers:
- the identity lookup (`authUser`);
- the completion service's reply (`reply`);
- `JSON.parse` (`parse`);
- whether the cache insert returned a row (`insertOk`);
- the document's `querySelector` (`targetFound`).

Responses are datatypes rather than HTTP objects. Numbers are `real`.

## Model

| member | source | states |
|---|---|---|
| `Upstream.ClaudeError` | supabase/functions/analyze/index.ts:185-188 | the upstream error message is the fixed prefix followed by the upstream body, unchanged |
| `JsonExtract.FirstOpen` | supabase/functions/analyze/index.ts:196 | the index of the first `{`, or none when the text has no `{` |
| `JsonExtract.LastClose` | supabase/functions/analyze/index.ts:196 | the index of the last `}`, or none when the text has no `}` |
| `JsonExtract.ExtractJson` | supabase/functions/analyze/index.ts:196-197 | the candidate is the text itself, or a substring of it from a `{` to a later `}` (which one: `ExtractJsonIsLeftmostLongest`) |
| `JsonExtract.ExtractJsonIsLeftmostLongest` | supabase/functions/analyze/index.ts:196-197 | if some `{` has a `}` after it, the parsed candidate is the leftmost, then longest, substring from a `{` to a `}`, i.e. first `{` to last `}`; otherwise it is the whole text |
| `JsonExtract.ExtractJsonIdempotent` | supabase/functions/analyze/index.ts:196-197 | extracting again from the candidate gives the same candidate |
| `JsonExtract.ExtractJsonIsGreedy` | supabase/functions/analyze/index.ts:196 | the match is not brace-balanced: `x{a}y}z` yields `{a}y}` |
| `Analyze.ResolveUser` | supabase/functions/analyze/index.ts:33-44 | the caller is a user exactly when the identity lookup gave a non-empty id; otherwise anonymous |
| `Analyze.PriceContextOf` | supabase/functions/analyze/index.ts:93-101 | the market-rate line is used iff `pricePerNight` is truthy, with the given currency and price, at the given location or "this location"; otherwise the infer-price-tier line |
| `Analyze.PromptFor` | supabase/functions/analyze/index.ts:53-181 | the language is "English" only when the request has none. The price line is `PriceContextOf` of the request. The hotel name and all submitted reviews are sent |
| `Analyze.AnalysisCache.constructor` | supabase/functions/analyze/index.ts:67-79 | the model starts from empty `hotel_analyses` and `user_analyses` tables that satisfy the invariant |
| `Analyze.AnalysisCache.StoreAndLog` | supabase/functions/analyze/index.ts:205-228 | an insert that returned a row adds exactly one record under `hotel_id` with the next id and the analysis's rating, then appends the one log entry for it; keeps `Valid()` |
| `Analyze.AnalysisCache.Serve` | supabase/functions/analyze/index.ts:46-237 | missing `hotel_id` or empty `reviews`: 400, no lookup, no call, no change. Hit (the lookup succeeded and the hotel is stored): `cached: true` with the stored analysis, no call, table unchanged, one log entry for the stored record. Miss, including a failed lookup of a stored hotel (its error is ignored): one call with the request's prompt. Upstream failure, a rejected `fetch` or non-JSON ok body, empty content or an unparsable candidate: 500, no record, no log entry. Parsed: `cached: false` with the analysis; when the insert returns a row (never for a hotel already stored, `hotel_id` being unique), exactly one record keyed by `hotel_id` with `adjusted_rating` from the analysis and one log entry for it, else neither. Keeps `Valid()`: every log entry references a stored record, and a user-attributed entry has no session |
| `Analyze.MissThenHit` | supabase/functions/analyze/index.ts:67-88 | a stored miss followed by a request for the same `hotel_id` whose lookup succeeds serves the same analysis with `cached: true` |
| `Ask.JoinEnds` | supabase/functions/ask/index.ts:45-46 | `join(', ')`: empty for no items; otherwise it starts with the first item and ends with the last |
| `Ask.JoinSplit` | supabase/functions/ask/index.ts:45-46 | joining a list equals joining its two parts around one separator |
| `Ask.FirstThree` | supabase/functions/ask/index.ts:45-46 | the line lists all items when there are at most three. Otherwise it is the full `", "`-joined listing cut just before the fourth item: the first three, in order |
| `Ask.ValueShown` | supabase/functions/ask/index.ts:44 | an absent or zero `valueScore` reads `N/A`; any other is shown as the number itself |
| `Ask.AnalysisContext` | supabase/functions/ask/index.ts:41-47 | the summary carries the hotel and the rating. The value score is N/A iff falsy, otherwise the score itself. The first three issues and strengths are listed as above |
| `Ask.Handle` | supabase/functions/ask/index.ts:30-95 | missing question or empty reviews: 400 and no call. The service is called iff the request is admissible and carries an analysis, with that summary, the reviews and the question. The answer is exactly the first content block's text. A non-ok reply gives a 500 whose message carries the upstream body. A rejected `fetch` or a non-JSON ok body gives a 500 with the engine's message. An admissible request that fails anyway gets a 500. A missing `analysis`, or empty reply content, gives the TypeError message |
| `Ask.FourIssuesListThree` | supabase/functions/ask/index.ts:45 | four issues produce `"noise, wifi, dirt"` |
| `HeaderScroll.Header.constructor` | app.js:36 | a page starts with `lastScrollTop` 0 and neither class set |
| `HeaderScroll.Header.OnScroll` | app.js:39-63 | `lastScrollTop` becomes the position (at or past 100 the clamp never applies). `scrolled` iff the position is at least 100. Below 100 `header-hidden` is cleared. Past 100 and further down it is set. At or past 100 and moving up it is cleared. Staying put, or moving down onto exactly 100, leaves it. Keeps `Valid()`: `scrolled` iff `lastScrollTop` is at least 100, and hidden only while scrolled |
| `HeaderScroll.DownThenUp` | app.js:54-60 | scrolling down past the threshold and then up again shows the header |
| `MobileMenu.CleanHref` | app.js:148-149 | a leading `/#` loses only its slash; any other href is unchanged |
| `MobileMenu.CleanHrefIdempotent` | app.js:149 | cleaning twice is cleaning once |
| `MobileMenu.SlashHashLinksUnhandledAsWritten` | app.js:139-149 | as written, `/#news` is not selected by `a[href^="#"]`. On every selected link the `/#` test and the rewrite have no effect |
| `MobileMenu.SelectedLinksBecomeFragments` | app.js:139-150 | with `/#` links selected too, every handled non-default href becomes a `#name` selector; `/#news` becomes `#news` |
| `MobileMenu.Menu.constructor` | app.js:67-71 | the page starts with the menu closed and the body unlocked |
| `MobileMenu.Menu.ToggleBurger` | app.js:72-76 | the burger toggles the menu open or closed; the body is locked iff the menu is open; button and overlay stay equal |
| `MobileMenu.Menu.Close` | app.js:81-83 | both flags are cleared and the body unlocked |
| `MobileMenu.Menu.ClickNavLink` | app.js:79-85 | a menu link closes the menu |
| `MobileMenu.Menu.ClickOverlay` | app.js:88-94 | a click on the overlay itself closes the menu; a click inside it changes nothing |
| `MobileMenu.Menu.ClickAnchor` | app.js:140-167 | `#` and `/#` are left to the browser with the menu untouched. Otherwise the cleaned selector is scrolled to and the menu closed when the target exists, and nothing changes when it does not |
| `MobileMenu.Menu.ClickLink` | app.js:139-168 | models the intended selection of `#…` and `/#…` links, not the `a[href^="#"]` gate at app.js:139 (see Findings). Unselected links navigate normally and leave the menu alone. A selected link runs the anchor handler: `#` and `/#` are left to the browser; otherwise the cleaned `#name` selector is scrolled to and the menu closed when found, and nothing changes when not |
| `Library.DeviationOf` | app.js:302-308 | with `diff = adjusted - original`, each verdict holds exactly in its range. `< -1.0` is major inflation, `[-1.0, -0.5)` minor, `> 0.5` better than rated, otherwise accurate. The ranges partition the reals |
| `Library.DeviationLine` | app.js:303-308 | `deviationText` and `devColor`: each of the four texts and each of the four colours appears exactly on its range of the difference |
| `Library.DeviationMonotone` | app.js:302-308 | a larger difference never gives a more alarming verdict |
| `Library.ScoreStyleOf` | app.js:353-357 | teal iff the rating is at least 8, amber iff it is in `[6, 8)`, red iff it is below 6 |
| `Library.GetScoreStyle` | app.js:353-357 | the teal style iff the rating is at least 8, amber iff it is in `[6, 8)`, red iff it is below 6 |
| `Library.ScoreStyleMonotone` | app.js:353-357 | a higher rating is never shown in a worse colour |
| `Library.BeforeFirstDot` | app.js:311 | `split('.')[0]`: the longest prefix without a `.`; it is followed by a `.` unless it is the whole string |
| `Library.RecText` | app.js:311 | the snippet always ends in `.` and has no other `.`. A missing or empty recommendation gives "No recommendation available.". Otherwise it is the recommendation up to its first `.`, then `.` |
| `Library.RecTextKeepsFirstSentence` | app.js:311 | `"Ok. No."` gives `"Ok."` |

The handler's code does less than its prompt asks of the LLM, and the
model follows the code:
- The JSON candidate runs from the first `{` to the last `}`
  (supabase/functions/analyze/index.ts:196). It is not the first balanced
  object.
- A fresh analysis is logged only when the insert returned a row
  (supabase/functions/analyze/index.ts:223-229).
- The prompt asks for an `adjustedRating` in "1.0-10.0"
  (supabase/functions/analyze/index.ts:148), but the code never checks it.
  The rating is stored as parsed, and it is absent when the parsed object
  has none.

## Left out

- HTTP serving, the CORS preflight, environment lookups and `Response` construction: plumbing. Responses are datatypes.
- The database client and the completion-service `fetch`: foreign services, replaced by the two table fields and the oracle parameters. A `fetch` that rejects and an ok body that is not JSON are one reply variant (`Broken`), whose exception message is not modelled.
- `JSON.parse`, `JSON.stringify` and JavaScript's number-to-string conversion: library code. Parsing is the `parse` parameter, and prompt pieces that embed numbers are datatypes (`PriceContext`, `Context`) instead of strings.
- The fixed wording of both system prompts: constant text with no behaviour beyond the price, language and summary selections modelled.
- Races between simultaneous misses for one `hotel_id`: platform concurrency outside a sequential model.
- Record ids: the store's generated ids are modelled as a counter (`nextId`).
- `Analyze.AnalysisCache.Serve`: does not model a failing `user_analyses` insert, whose result the source ignores; every log insert is taken to succeed.
- `Analyze.AnalysisCache.Serve`: request members of the wrong JSON type fall outside the model's types and are not modelled. Examples: a numeric `hotel_id`, a string `reviews`, `language: null` (not defaulted, so the prompt reads "in null"), a string `pricePerNight`.
- `Analyze.AnalysisCache.Serve`: a reply whose first content block has no text is not modelled.
- `Analyze.AnalysisCache.Serve`: a reply that parses to a non-object is not modelled. For example, text `null` has no braces, is parsed whole, and reading `adjustedRating` from the result throws a TypeError, so a 500 with the engine's message. `parse` returns either an analysis or a parse failure, so neither outcome reproduces this.
- `Ask.Handle`: a reply whose first content block has no `text` is not modelled. The source then answers 200 with `{}`, since `answer` is undefined.
- `Ask.Handle`: an `analysis` whose `keyIssues` or `keyStrengths` is missing (a TypeError, so a 500 like a missing `analysis`) is not modelled.
- `HeaderScroll.Header.OnScroll`: the position is one number. The `pageYOffset || scrollTop` fallback is not modelled.
- `MobileMenu.Menu`: the case where the burger button or the overlay is absent from the page is not modelled. The source then installs no menu handlers at all.
- `MobileMenu.Menu.ClickAnchor`: a selector `querySelector` rejects with an exception is not modelled separately. Its effect equals "no target": navigation prevented and the menu untouched.
- The smooth-scroll offset arithmetic, the `setTimeout` entry animations, the contact and newsletter forms, `localStorage`, the extension messaging (`chrome.runtime.sendMessage`), the card HTML templating and `toFixed`: DOM, timers and browser APIs.
- `Library.DeviationOf`, `Library.DeviationLine`, `Library.ScoreStyleOf`, `Library.GetScoreStyle`: use exact real arithmetic instead of IEEE doubles. A missing rating (NaN) is not modelled. A difference that rounds across a boundary is classified by its exact value: in doubles 7.3 - 8.3 is -1.0000000000000009, "Major" in the source, while the model's -1.0 is "Minor".

## Findings

| source | as written | input that shows it | evidently intended | confidence | as-written member | corrected member |
|---|---|---|---|---|---|---|
| app.js:139-149 | the anchor handler is attached only to links matching `a[href^="#"]`, so the `/#` check and the `/#`-to-`#` rewrite never take effect | a link `<a href="/#news">` | the comment at line 148 says `/#news` links are handled: they scroll to `#news` and close the menu | medium, not executed | `MobileMenu.SlashHashLinksUnhandledAsWritten` | `MobileMenu.SelectedLinksBecomeFragments` (used by `MobileMenu.Menu.ClickLink`) |

=== FILE: analyze.dfy ===
/**
 * The cache-first analysis endpoint. A request names a hotel and carries its
 * reviews; a stored analysis for that hotel is served as it is, otherwise the
 * completion service is asked for one, the JSON object in its reply is parsed,
 * stored, and returned. Every serve that has a stored record behind it is
 * logged, attributed to the signed-in user or else to the anonymous session.
 *
 * The two tables the handler touches, `hotel_analyses` and `user_analyses`,
 * are the fields of `AnalysisCache`; the completion service, `JSON.parse`,
 * the identity lookup and the outcome of the row insert are parameters.
 */
module Analyze {
  import opened Wrappers
  import opened Upstream
  import opened JsonExtract

  datatype Issue = Issue(issue: string, severity: string, mentionedInPercent: real)
  datatype Strength = Strength(strength: string, mentionedInPercent: real)

  /**
   * A parsed analysis. The handler looks only at `adjustedRating` (absent when
   * the parsed value has no such number); everything else is stored and
   * returned verbatim.
   */
  datatype Analysis = Analysis(
    adjustedRating: Option<real>,
    confidenceLevel: string,
    ignoredReviewsCount: int,
    keyIssues: seq<Issue>,
    keyStrengths: seq<Strength>,
    trendText: string,
    trendDirection: string,
    recommendation: string)

  datatype PriceData = PriceData(currency: string, pricePerNight: real)

  /** The request body; members a client may leave out are `Option`s. */
  datatype AnalyzeRequest = AnalyzeRequest(
    hotelId: Option<string>,
    hotelName: string,
    reviews: Option<seq<Review>>,
    priceData: Option<PriceData>,
    location: Option<string>,
    language: Option<string>,
    sessionId: Option<string>)

  /** A row of `hotel_analyses`. */
  datatype CacheRecord = CacheRecord(
    id: nat, hotelId: string, hotelName: string, analysis: Analysis, adjustedRating: Option<real>)

  /** A row of `user_analyses`: who was served which stored analysis. */
  datatype AccessEntry = AccessEntry(userId: Option<string>, sessionId: Option<string>, recordId: nat)

  /** The price line of the system prompt. */
  datatype PriceContext =
    | InferPriceTier
    | MarketRate(currency: string, pricePerNight: real, location: string)

  /** What is sent to the completion service on a miss. */
  datatype Prompt = Prompt(language: string, priceContext: PriceContext, hotelName: string, reviews: seq<Review>)

  datatype Response =
    | Served(cached: bool, analysis: Analysis)
    | Rejected(status: nat, error: ErrorText)

  const RequiredMessage: string := "hotel_id and reviews are required"
  const ParseFailedMessage: string := "Failed to parse analysis response"
  const DefaultLanguage: string := "English"
  const DefaultLocation: string := "this location"

  /** The validation at the top of the handler: a truthy `hotel_id` and a non-empty `reviews`. */
  predicate Admissible(req: AnalyzeRequest) {
    Truthy(req.hotelId) && HasReviews(req.reviews)
  }

  /** The user id the log is attributed to: `user?.id || null`. */
  function ResolveUser(authUser: Option<string>): (userId: Option<string>)
    ensures userId.None? <==> !Truthy(authUser)
    ensures userId.Some? ==> userId == authUser && userId.value != ""
  {
    if Truthy(authUser) then authUser else None
  }

  /**
   * The price line: a truthy `pricePerNight` gives the market-rate comparison
   * at the given location or "this location"; otherwise the tier is inferred.
   */
  function PriceContextOf(priceData: Option<PriceData>, location: Option<string>): (c: PriceContext)
    ensures c.InferPriceTier? <==> priceData.None? || priceData.value.pricePerNight == 0.0
    ensures c.MarketRate? ==>
      c.currency == priceData.value.currency && c.pricePerNight == priceData.value.pricePerNight &&
      c.location != "" && (Truthy(location) ==> c.location == location.value) &&
      (!Truthy(location) ==> c.location == DefaultLocation)
  {
    if priceData.Some? && priceData.value.pricePerNight != 0.0 then
      MarketRate(priceData.value.currency, priceData.value.pricePerNight,
                 if Truthy(location) then location.value else DefaultLocation)
    else
      InferPriceTier
  }

  /**
   * The call made on a miss. The language defaults to English only when the
   * member is absent: an explicit empty string is used as given.
   */
  function PromptFor(req: AnalyzeRequest): (p: Prompt)
    requires Admissible(req)
    ensures p.language == (if req.language.Some? then req.language.value else DefaultLanguage)
    ensures p.reviews == req.reviews.value && |p.reviews| > 0
    ensures p.priceContext == PriceContextOf(req.priceData, req.location) && p.hotelName == req.hotelName
  {
    Prompt(req.language.GetOr(DefaultLanguage), PriceContextOf(req.priceData, req.location),
           req.hotelName, req.reviews.value)
  }

  /** The lookup finds the requested hotel: it succeeded and the hotel is stored. */
  predicate Found(analyses: map<string, CacheRecord>, req: AnalyzeRequest, lookupOk: bool)
    requires Admissible(req)
  {
    lookupOk && req.hotelId.value in analyses
  }

  /** The candidate `JSON.parse` receives when the reply has a first content block. */
  function Candidate(reply: Reply): string
    requires reply.Completed? && |reply.blocks| > 0
  {
    ExtractJson(reply.blocks[0])
  }

  /** The id of every stored record. */
  function RecordIds(analyses: map<string, CacheRecord>): set<nat> {
    set k | k in analyses :: analyses[k].id
  }

  /** Storing a record under a new key adds exactly its id. */
  lemma RecordIdsInsert(analyses: map<string, CacheRecord>, k: string, r: CacheRecord)
    requires k !in analyses
    ensures RecordIds(analyses[k := r]) == RecordIds(analyses) + {r.id}
  {
    var m := analyses[k := r];
    forall id | id in RecordIds(analyses) + {r.id} ensures id in RecordIds(m) {
      if id != r.id {
        var k' :| k' in analyses && analyses[k'].id == id;
        assert m[k'] == analyses[k'];
      } else {
        assert m[k].id == id;
      }
    }
  }

  /** A log entry with a user carries no session. */
  predicate Attributed(e: AccessEntry) {
    e.userId.Some? ==> e.sessionId.None?
  }

  /** `e` is the entry logged for `req` by the caller `authUser`, for record `id`. */
  predicate LoggedFor(e: AccessEntry, req: AnalyzeRequest, authUser: Option<string>, id: nat) {
    e.recordId == id && e.userId == ResolveUser(authUser) &&
    (e.userId.None? ==> e.sessionId == req.sessionId) && Attributed(e)
  }

  class AnalysisCache {
    /** `hotel_analyses`, keyed by its unique `hotel_id` column. */
    var analyses: map<string, CacheRecord>
    /** `user_analyses`, in insertion order. */
    var accesses: seq<AccessEntry>
    /** The id the store gives to the next inserted record. */
    var nextId: nat

    /**
     * Each record sits under its own hotel id, record ids are distinct and
     * issued, and every log entry references a stored record and keeps the
     * attribution rule.
     */
    ghost predicate Valid()
      reads this
    {
      (forall k :: k in analyses ==> analyses[k].hotelId == k && analyses[k].id < nextId) &&
      (forall k, k' :: k in analyses && k' in analyses && k != k' ==> analyses[k].id != analyses[k'].id) &&
      (forall i :: 0 <= i < |accesses| ==> accesses[i].recordId in RecordIds(analyses) && Attributed(accesses[i]))
    }

    constructor ()
      ensures Valid() && analyses == map[] && accesses == []
    {
      analyses := map[];
      accesses := [];
      nextId := 0;
    }

    /**
     * The insert that returned a row, followed by the log entry for it: a new
     * record under `hotelId` with the next id, and `entry` appended.
     */
    method StoreAndLog(hotelId: string, hotelName: string, analysis: Analysis, entry: AccessEntry)
      requires Valid() && hotelId !in analyses && entry.recordId == nextId && Attributed(entry)
      modifies this
      ensures Valid()
      ensures analyses == old(analyses)[hotelId := CacheRecord(old(nextId), hotelId, hotelName, analysis, analysis.adjustedRating)]
      ensures accesses == old(accesses) + [entry]
    {
      var row := CacheRecord(nextId, hotelId, hotelName, analysis, analysis.adjustedRating);
      RecordIdsInsert(analyses, hotelId, row);
      analyses := analyses[hotelId := row];
      nextId := nextId + 1;
      accesses := accesses + [entry];
    }

    /**
     * One request. `authUser` is the id the identity service resolved from the
     * Authorization header (None without one), `reply` what the completion
     * service answers, `parse` is `JSON.parse`, `lookupOk` whether the cache
     * lookup succeeded (the handler ignores a failed lookup's error and treats
     * it as a miss) and `insertOk` whether the insert
     * of the new record returned a row. `sent` is the call made to the
     * completion service, if any.
     */
    method Serve(req: AnalyzeRequest, authUser: Option<string>, reply: Reply,
                 parse: string -> Option<Analysis>, lookupOk: bool, insertOk: bool)
      returns (resp: Response, sent: Option<Prompt>)
      requires Valid()
      modifies this
      ensures Valid()
      // A rejected request touches nothing and calls nothing.
      ensures !Admissible(req) ==>
        resp == Rejected(400, Message(RequiredMessage)) && sent.None? &&
        analyses == old(analyses) && accesses == old(accesses)
      // Hit: the stored analysis, verbatim; one log entry for the stored record.
      ensures Admissible(req) && Found(old(analyses), req, lookupOk) ==>
        var rec := old(analyses)[req.hotelId.value];
        resp == Served(true, rec.analysis) && sent.None? &&
        analyses == old(analyses) && |accesses| == |old(accesses)| + 1 &&
        accesses[..|old(accesses)|] == old(accesses) && LoggedFor(accesses[|old(accesses)|], req, authUser, rec.id)
      // Miss: exactly one call, with the prompt built from the request.
      ensures Admissible(req) && !Found(old(analyses), req, lookupOk) ==> sent == Some(PromptFor(req))
      // Miss, upstream failure or unusable reply: a 500 and no change.
      ensures Admissible(req) && !Found(old(analyses), req, lookupOk) && reply.Failed? ==>
        resp == Rejected(500, Message(ClaudeError(reply.body))) &&
        analyses == old(analyses) && accesses == old(accesses)
      ensures Admissible(req) && !Found(old(analyses), req, lookupOk) && reply.Broken? ==>
        resp == Rejected(500, TransportErrorText) && analyses == old(analyses) && accesses == old(accesses)
      ensures Admissible(req) && !Found(old(analyses), req, lookupOk) && reply.Completed? && |reply.blocks| == 0 ==>
        resp == Rejected(500, TypeErrorText) && analyses == old(analyses) && accesses == old(accesses)
      ensures Admissible(req) && !Found(old(analyses), req, lookupOk) && reply.Completed? && |reply.blocks| > 0 &&
              parse(Candidate(reply)).None? ==>
        resp == Rejected(500, Message(ParseFailedMessage)) && analyses == old(analyses) && accesses == old(accesses)
      // Miss with a parsed analysis: served fresh; stored and logged exactly when the insert returned a row.
      ensures Admissible(req) && !Found(old(analyses), req, lookupOk) && reply.Completed? && |reply.blocks| > 0 &&
              parse(Candidate(reply)).Some? ==>
        var a := parse(Candidate(reply)).value;
        resp == Served(false, a) &&
        (insertOk && req.hotelId.value !in old(analyses) ==>
          analyses == old(analyses)[req.hotelId.value := CacheRecord(old(nextId), req.hotelId.value, req.hotelName, a, a.adjustedRating)] &&
          |accesses| == |old(accesses)| + 1 && accesses[..|old(accesses)|] == old(accesses) &&
          LoggedFor(accesses[|old(accesses)|], req, authUser, old(nextId))) &&
        (!insertOk || req.hotelId.value in old(analyses) ==> analyses == old(analyses) && accesses == old(accesses))
    {
      sent := None;
      if !Admissible(req) {
        resp := Rejected(400, Message(RequiredMessage));
        return;
      }
      var hotelId := req.hotelId.value;
      var userId := ResolveUser(authUser);
      var sessionId := if userId.Some? then None else req.sessionId;

      if lookupOk && hotelId in analyses {
        var cached := analyses[hotelId];
        accesses := accesses + [AccessEntry(userId, sessionId, cached.id)];
        resp := Served(true, cached.analysis);
        return;
      }

      sent := Some(PromptFor(req));
      if reply.Failed? {
        resp := Rejected(500, Message(ClaudeError(reply.body)));
        return;
      }
      if reply.Broken? {
        resp := Rejected(500, TransportErrorText);
        return;
      }
      if |reply.blocks| == 0 {
        resp := Rejected(500, TypeErrorText);
        return;
      }
      var parsed := parse(Candidate(reply));
      if parsed.None? {
        resp := Rejected(500, Message(ParseFailedMessage));
        return;
      }
      var analysis := parsed.value;

      // `hotel_id` is the table's unique key: inserting a stored hotel returns no row.
      if insertOk && hotelId !in analyses {
        StoreAndLog(hotelId, req.hotelName, analysis, AccessEntry(userId, sessionId, nextId));
      }
      resp := Served(false, analysis);
    }
  }

  /**
   * The round trip through the cache: a miss whose analysis is stored, then
   * any later request for the same hotel whose lookup succeeds, is served that same analysis from
   * the cache without a call to the completion service.
   */
  method MissThenHit(cache: AnalysisCache, req: AnalyzeRequest, again: AnalyzeRequest,
                     authUser: Option<string>, reply: Reply, parse: string -> Option<Analysis>,
                     laterUser: Option<string>, laterReply: Reply, laterParse: string -> Option<Analysis>,
                     laterInsertOk: bool)
    returns (first: Response, second: Response)
    requires cache.Valid() && Admissible(req) && Admissible(again)
    requires again.hotelId == req.hotelId && req.hotelId.value !in cache.analyses
    requires reply.Completed? && |reply.blocks| > 0 && parse(Candidate(reply)).Some?
    modifies cache
    ensures cache.Valid()
    ensures first == Served(false, parse(Candidate(reply)).value)
    ensures second == Served(true, first.analysis)
    ensures |cache.accesses| == |old(cache.accesses)| + 2
  {
    var sent;
    first, sent := cache.Serve(req, authUser, reply, parse, true, true);
    second, sent := cache.Serve(again, laterUser, laterReply, laterParse, true, laterInsertOk);
    assert sent.None?;
  }
}

=== FILE: ask.dfy ===
/**
 * The follow-up question endpoint: it checks the request, condenses the
 * client's analysis into a short summary for the system prompt, forwards the
 * question once to the completion service and returns its text. It keeps no
 * state.
 */
module Ask {
  import opened Wrappers
  import opened Upstream

  datatype IssueItem = IssueItem(issue: string)
  datatype StrengthItem = StrengthItem(strength: string)

  /** The analysis the client sends back with its question. */
  datatype Summary = Summary(
    adjustedRating: real,
    valueScore: Option<real>,
    keyIssues: seq<IssueItem>,
    keyStrengths: seq<StrengthItem>)

  datatype AskRequest = AskRequest(
    question: Option<string>,
    hotelName: string,
    analysis: Option<Summary>,
    reviews: Option<seq<Review>>,
    sessionId: Option<string>)

  /** How the value score line reads: `N/A` or the number. */
  datatype ValueScore = NotAvailable | Score(value: real)

  /** The analysis summary embedded in the system prompt, line by line. */
  datatype Context = Context(
    hotel: string,
    qualityScore: real,
    valueScore: ValueScore,
    keyIssues: string,
    keyStrengths: string)

  /** The single call made to the completion service. */
  datatype AskCall = AskCall(context: Context, reviews: seq<Review>, question: string)

  datatype Response = Answered(answer: string) | Rejected(status: nat, error: ErrorText)

  /** The response, and the call made to the completion service if one was made. */
  datatype Outcome = Outcome(response: Response, sent: Option<AskCall>)

  const RequiredMessage: string := "question and reviews are required"
  const ListSeparator: string := ", "
  const SummaryItems: nat := 3

  /** `Array.prototype.join`. */
  function Join(xs: seq<string>, sep: string): string {
    if |xs| == 0 then ""
    else if |xs| == 1 then xs[0]
    else xs[0] + sep + Join(xs[1..], sep)
  }

  /** A joined list is empty for no items; otherwise it starts with the first item and ends with the last. */
  lemma {:induction false} JoinEnds(xs: seq<string>, sep: string)
    ensures |xs| == 0 ==> Join(xs, sep) == ""
    ensures |xs| > 0 ==> |Join(xs, sep)| >= |xs[0]| && Join(xs, sep)[..|xs[0]|] == xs[0]
    ensures |xs| > 0 ==> var r, last := Join(xs, sep), xs[|xs| - 1];
      |r| >= |last| && r[|r| - |last|..] == last
  {
    if |xs| >= 2 {
      JoinEnds(xs[1..], sep);
      var r, t := Join(xs, sep), Join(xs[1..], sep);
      assert r == xs[0] + sep + t;
      assert xs[1..][|xs| - 2] == xs[|xs| - 1];
      assert r[|r| - |t|..] == t;
    }
  }

  /** Joining a list is joining its two parts around one separator. */
  lemma {:induction false} JoinSplit(xs: seq<string>, sep: string, k: nat)
    requires 0 < k < |xs|
    ensures Join(xs, sep) == Join(xs[..k], sep) + sep + Join(xs[k..], sep)
  {
    var rest := xs[1..];
    assert Join(xs, sep) == xs[0] + sep + Join(rest, sep);
    if k == 1 {
      assert xs[..1] == [xs[0]];
      assert rest == xs[k..];
    } else {
      var front := xs[..k];
      JoinSplit(rest, sep, k - 1);
      assert rest[..k - 1] == front[1..];
      assert rest[k - 1..] == xs[k..];
      assert Join(front, sep) == front[0] + sep + Join(front[1..], sep);
    }
  }

  /**
   * `slice(0, 3).join(", ")`: all items when there are at most three;
   * otherwise the full listing cut just before the fourth item, so the first
   * three in their original order.
   */
  function FirstThree(xs: seq<string>): (line: string)
    ensures |xs| <= SummaryItems ==> line == Join(xs, ListSeparator)
    ensures |xs| > SummaryItems ==>
      line + ListSeparator + Join(xs[SummaryItems..], ListSeparator) == Join(xs, ListSeparator)
  {
    if |xs| <= SummaryItems then Join(xs, ListSeparator)
    else
      JoinSplit(xs, ListSeparator, SummaryItems);
      Join(xs[..SummaryItems], ListSeparator)
  }

  /** `map(i => i.issue)`. */
  function IssueTexts(items: seq<IssueItem>): seq<string> {
    seq(|items|, i requires 0 <= i < |items| => items[i].issue)
  }

  /** `map(s => s.strength)`. */
  function StrengthTexts(items: seq<StrengthItem>): seq<string> {
    seq(|items|, i requires 0 <= i < |items| => items[i].strength)
  }

  /** `valueScore || 'N/A'`: an absent or zero score reads `N/A`. */
  function ValueShown(v: Option<real>): (shown: ValueScore)
    ensures shown.NotAvailable? <==> v.None? || v.value == 0.0
    ensures shown.Score? ==> v == Some(shown.value)
  {
    if v.Some? && v.value != 0.0 then Score(v.value) else NotAvailable
  }

  /** The summary of the prompt: the rating, the value score and the first three issues and strengths. */
  function AnalysisContext(hotelName: string, s: Summary): (c: Context)
    ensures c.hotel == hotelName && c.qualityScore == s.adjustedRating
    ensures c.valueScore == ValueShown(s.valueScore)
    ensures |s.keyIssues| <= SummaryItems ==> c.keyIssues == Join(IssueTexts(s.keyIssues), ListSeparator)
    ensures |s.keyIssues| > SummaryItems ==>
      c.keyIssues + ListSeparator + Join(IssueTexts(s.keyIssues)[SummaryItems..], ListSeparator)
        == Join(IssueTexts(s.keyIssues), ListSeparator)
    ensures |s.keyStrengths| <= SummaryItems ==> c.keyStrengths == Join(StrengthTexts(s.keyStrengths), ListSeparator)
    ensures |s.keyStrengths| > SummaryItems ==>
      c.keyStrengths + ListSeparator + Join(StrengthTexts(s.keyStrengths)[SummaryItems..], ListSeparator)
        == Join(StrengthTexts(s.keyStrengths), ListSeparator)
  {
    Context(hotelName, s.adjustedRating, ValueShown(s.valueScore),
            FirstThree(IssueTexts(s.keyIssues)), FirstThree(StrengthTexts(s.keyStrengths)))
  }

  /** The validation: a truthy question and a non-empty review list. */
  predicate Admissible(req: AskRequest) {
    Truthy(req.question) && HasReviews(req.reviews)
  }

  /**
   * The handler. An admissible request without an `analysis` member fails
   * with a TypeError while the summary is built, before any call; `reply` is
   * the completion service's answer to the one call made.
   */
  function Handle(req: AskRequest, reply: Reply): (out: Outcome)
    ensures !Admissible(req) ==> out == Outcome(Rejected(400, Message(RequiredMessage)), None)
    ensures out.sent.Some? <==> Admissible(req) && req.analysis.Some?
    ensures out.sent.Some? ==>
      out.sent.value == AskCall(AnalysisContext(req.hotelName, req.analysis.value), req.reviews.value, req.question.value)
    ensures out.response.Answered? <==> out.sent.Some? && reply.Completed? && |reply.blocks| > 0
    ensures out.response.Answered? ==> out.response.answer == reply.blocks[0]
    ensures out.sent.Some? && reply.Failed? ==> out.response == Rejected(500, Message(ClaudeError(reply.body)))
    ensures Admissible(req) && out.response.Rejected? ==> out.response.status == 500
    ensures Admissible(req) && req.analysis.None? ==> out == Outcome(Rejected(500, TypeErrorText), None)
    ensures out.sent.Some? && reply.Completed? && |reply.blocks| == 0 ==> out.response == Rejected(500, TypeErrorText)
    ensures out.sent.Some? && reply.Broken? ==> out.response == Rejected(500, TransportErrorText)
  {
    if !Admissible(req) then
      Outcome(Rejected(400, Message(RequiredMessage)), None)
    else if req.analysis.None? then
      Outcome(Rejected(500, TypeErrorText), None)
    else
      var call := AskCall(AnalysisContext(req.hotelName, req.analysis.value), req.reviews.value, req.question.value);
      match reply
      case Failed(body) => Outcome(Rejected(500, Message(ClaudeError(body))), Some(call))
      case Broken => Outcome(Rejected(500, TransportErrorText), Some(call))
      case Completed(blocks) =>
        if |blocks| == 0 then Outcome(Rejected(500, TypeErrorText), Some(call))
        else Outcome(Answered(blocks[0]), Some(call))
  }

  /** Example: four issues, three listed. */
  lemma FourIssuesListThree()
    ensures FirstThree(["noise", "wifi", "dirt", "mold"]) == "noise, wifi, dirt"
  {
    var xs := ["noise", "wifi", "dirt", "mold"];
    assert xs[..3] == ["noise", "wifi", "dirt"];
    assert Join(["dirt"], ", ") == "dirt";
    assert ["wifi", "dirt"][1..] == ["dirt"];
    assert Join(["wifi", "dirt"], ", ") == "wifi, dirt";
    assert ["noise", "wifi", "dirt"][1..] == ["wifi", "dirt"];
    assert Join(["noise", "wifi", "dirt"], ", ") == "noise, wifi, dirt";
  }
}

=== FILE: header_scroll.dfy ===
/**
 * The page header's reaction to scrolling. Below a 100-pixel threshold the
 * header is plain and shown; at or past it the header is styled as
 * `scrolled`, hidden while the page scrolls down and shown again as soon as
 * it scrolls up.
 */
module HeaderScroll {

  const ScrollThreshold: real := 100.0

  class Header {
    /** The position of the previous scroll event (module-level `lastScrollTop`). */
    var lastScrollTop: real
    /** Whether the header carries the `scrolled` class. */
    var scrolled: bool
    /** Whether the header carries the `header-hidden` class. */
    var hidden: bool

    /**
     * The header is styled exactly when the last position is at or past the
     * threshold, and it is only ever hidden while styled.
     */
    ghost predicate Valid()
      reads this
    {
      (scrolled <==> lastScrollTop >= ScrollThreshold) && (hidden ==> scrolled)
    }

    /** A page loaded at the top, before any scroll event. */
    constructor ()
      ensures Valid() && lastScrollTop == 0.0 && !scrolled && !hidden
    {
      lastScrollTop := 0.0;
      scrolled := false;
      hidden := false;
    }

    /** One scroll event at vertical position `current`. */
    method OnScroll(current: real)
      requires Valid()
      modifies this
      ensures Valid()
      ensures lastScrollTop == current
      ensures scrolled <==> current >= ScrollThreshold
      ensures current < ScrollThreshold ==> !hidden
      // Past the threshold: moving down hides, moving up shows.
      ensures current > ScrollThreshold && current > old(lastScrollTop) ==> hidden
      ensures current >= ScrollThreshold && current < old(lastScrollTop) ==> !hidden
      // Staying put, or moving down onto exactly the threshold, leaves the header as it was.
      ensures (current >= ScrollThreshold && current == old(lastScrollTop)) ||
              (current == ScrollThreshold && current > old(lastScrollTop))
        ==> hidden == old(hidden)
    {
      if current < ScrollThreshold {
        hidden := false;
        scrolled := false;
        lastScrollTop := current;
        return;
      }
      scrolled := true;
      if current > lastScrollTop && current > ScrollThreshold {
        hidden := true;
      } else if current < lastScrollTop {
        hidden := false;
      }
      lastScrollTop := if current <= 0.0 then 0.0 else current;
    }
  }

  /** Scrolling down past the threshold and then back up shows the header again. */
  method DownThenUp(h: Header, down: real, up: real)
    requires h.Valid() && down > ScrollThreshold && down > h.lastScrollTop && up < down
    modifies h
    ensures h.Valid() && !h.hidden && h.lastScrollTop == up
  {
    h.OnScroll(down);
    assert h.hidden;
    h.OnScroll(up);
  }
}

=== FILE: json_extract.dfy ===
/**
 * Locating the JSON object in the completion text. The analyze handler
 * matches the text against the regular expression `\{[\s\S]*\}` and parses
 * the match, or the whole text when there is none. The expression is greedy:
 * the match runs from the first `{` that has a `}` after it to the LAST `}`
 * of the text. It does not balance braces.
 */
module JsonExtract {
  import opened Wrappers

  /** Index of the first `{` in `s`. */
  function FirstOpen(s: string): (r: Option<nat>)
    ensures r.Some? ==> r.value < |s| && s[r.value] == '{'
    ensures r.Some? ==> forall k :: 0 <= k < r.value ==> s[k] != '{'
    ensures r.None? ==> forall k :: 0 <= k < |s| ==> s[k] != '{'
  {
    if |s| == 0 then None
    else if s[0] == '{' then Some(0)
    else match FirstOpen(s[1..])
      case None => None
      case Some(i) => Some(i + 1)
  }

  /** Index of the last `}` in `s`. */
  function LastClose(s: string): (r: Option<nat>)
    ensures r.Some? ==> r.value < |s| && s[r.value] == '}'
    ensures r.Some? ==> forall k :: r.value < k < |s| ==> s[k] != '}'
    ensures r.None? ==> forall k :: 0 <= k < |s| ==> s[k] != '}'
  {
    if |s| == 0 then None
    else if s[|s| - 1] == '}' then Some(|s| - 1)
    else LastClose(s[..|s| - 1])
  }

  /** Positions `i < j` hold a `{` and a `}`: `s[i..j+1]` matches `\{[\s\S]*\}`. */
  predicate BraceSpan(s: string, i: int, j: int) {
    0 <= i < j < |s| && s[i] == '{' && s[j] == '}'
  }

  /** The string handed to `JSON.parse`: the regular-expression match, or the whole text. */
  function ExtractJson(s: string): (candidate: string)
    ensures candidate == s || (|candidate| >= 2 && candidate[0] == '{' && candidate[|candidate| - 1] == '}')
    ensures |candidate| <= |s|
    ensures candidate != s ==> exists i, j :: BraceSpan(s, i, j) && candidate == s[i..j + 1]
  {
    match (FirstOpen(s), LastClose(s))
    case (Some(i), Some(j)) => if i < j then assert BraceSpan(s, i, j); s[i..j + 1] else s
    case _ => s
  }

  /**
   * The regular-expression semantics: when some `{` has a `}` after it, the
   * candidate is the leftmost match and, among matches at that start, the
   * longest (a substring beginning with `{` and ending with `}`); when none
   * has, the candidate is the text itself.
   */
  lemma ExtractJsonIsLeftmostLongest(s: string)
    ensures (exists i, j :: BraceSpan(s, i, j)) ==>
      exists i, j :: BraceSpan(s, i, j) && ExtractJson(s) == s[i..j + 1] &&
        forall i', j' :: BraceSpan(s, i', j') ==> i <= i' && j' <= j
    ensures (forall i, j :: !BraceSpan(s, i, j)) ==> ExtractJson(s) == s
  {
    if exists i, j :: BraceSpan(s, i, j) {
      var i0, j0 :| BraceSpan(s, i0, j0);
      var fo, lc := FirstOpen(s), LastClose(s);
      assert fo.Some? && fo.value <= i0;
      assert lc.Some? && j0 <= lc.value;
      assert BraceSpan(s, fo.value, lc.value);
      forall i', j' | BraceSpan(s, i', j') ensures fo.value <= i' && j' <= lc.value {
      }
    } else {
      match (FirstOpen(s), LastClose(s))
      case (Some(i), Some(j)) =>
        assert !BraceSpan(s, i, j);
      case _ =>
    }
  }

  /**
   * Extracting from a candidate gives the candidate back: what the handler
   * parses is already a whole match (or a text with no match).
   */
  lemma ExtractJsonIdempotent(s: string)
    ensures ExtractJson(ExtractJson(s)) == ExtractJson(s)
  {
    var c := ExtractJson(s);
    match (FirstOpen(s), LastClose(s))
    case (Some(i), Some(j)) =>
      if i < j {
        assert c[0] == '{' && c[|c| - 1] == '}';
        var fo, lc := FirstOpen(c), LastClose(c);
        assert fo == Some(0);
        assert lc == Some(|c| - 1);
        assert c[0..|c|] == c;
      }
    case _ =>
  }

  /** Example: the match is greedy, not balanced: it runs to the last `}`. */
  lemma ExtractJsonIsGreedy()
    ensures ExtractJson("x{a}y}z") == "{a}y}"
  {
    var s := "x{a}y}z";
    assert s[1] == '{' && s[0] != '{';
    assert s[5] == '}' && s[6] != '}';
    assert FirstOpen(s) == Some(1);
    assert LastClose(s) == Some(5);
  }
}

=== FILE: library.dfy ===
/**
 * The rules behind the cards of the analysed-hotels library: how far the
 * adjusted rating departs from the listed one, which colour a score is shown
 * in, and the one-sentence recommendation snippet.
 */
module Library {
  import opened Wrappers

  /** The deviation verdict, from most to least alarming. */
  datatype Deviation = MajorInflation | MinorInflation | Accurate | BetterThanRated

  /**
   * The verdict for `diff = adjusted - original`: below -1.0 major inflation,
   * from -1.0 up to -0.5 (exclusive) minor inflation, above 0.5 better than
   * rated, accurate otherwise.
   */
  function DeviationOf(adjusted: real, original: real): (d: Deviation)
    ensures d == MajorInflation <==> adjusted - original < -1.0
    ensures d == MinorInflation <==> -1.0 <= adjusted - original < -0.5
    ensures d == Accurate <==> -0.5 <= adjusted - original <= 0.5
    ensures d == BetterThanRated <==> adjusted - original > 0.5
  {
    var diff := adjusted - original;
    if diff < -1.0 then MajorInflation
    else if diff < -0.5 then MinorInflation
    else if diff > 0.5 then BetterThanRated
    else Accurate
  }

  function DeviationRank(d: Deviation): nat {
    match d
    case MajorInflation => 0
    case MinorInflation => 1
    case Accurate => 2
    case BetterThanRated => 3
  }

  const MajorText: string := "Major rating inflation detected"
  const MinorText: string := "Minor rating inflation detected"
  const AccurateText: string := "Accurate rating"
  const BetterText: string := "Better than rated"

  function DeviationText(d: Deviation): string {
    match d
    case MajorInflation => MajorText
    case MinorInflation => MinorText
    case Accurate => AccurateText
    case BetterThanRated => BetterText
  }

  const MajorColor: string := "#e53e3e"
  const MinorColor: string := "#dd6b20"
  const AccurateColor: string := "#718096"
  const BetterColor: string := "#38a169"

  function DeviationColor(d: Deviation): string {
    match d
    case MajorInflation => MajorColor
    case MinorInflation => MinorColor
    case Accurate => AccurateColor
    case BetterThanRated => BetterColor
  }

  /**
   * The verdict line of a card, `deviationText` and `devColor`: each text and
   * each colour appears exactly on its range of `adjusted - original`.
   */
  function DeviationLine(adjusted: real, original: real): (line: (string, string))
    ensures line.0 == MajorText <==> adjusted - original < -1.0
    ensures line.0 == MinorText <==> -1.0 <= adjusted - original < -0.5
    ensures line.0 == AccurateText <==> -0.5 <= adjusted - original <= 0.5
    ensures line.0 == BetterText <==> adjusted - original > 0.5
    ensures line.1 == MajorColor <==> adjusted - original < -1.0
    ensures line.1 == MinorColor <==> -1.0 <= adjusted - original < -0.5
    ensures line.1 == AccurateColor <==> -0.5 <= adjusted - original <= 0.5
    ensures line.1 == BetterColor <==> adjusted - original > 0.5
  {
    var d := DeviationOf(adjusted, original);
    (DeviationText(d), DeviationColor(d))
  }

  /** A larger difference never gives a more alarming verdict. */
  lemma DeviationMonotone(adjusted: real, original: real, adjusted': real, original': real)
    requires adjusted - original <= adjusted' - original'
    ensures DeviationRank(DeviationOf(adjusted, original)) <= DeviationRank(DeviationOf(adjusted', original'))
  {
  }

  /** The colour a score is shown in. */
  datatype ScoreStyle = Teal | Amber | Red

  function ScoreStyleOf(rating: real): (s: ScoreStyle)
    ensures s == Teal <==> rating >= 8.0
    ensures s == Amber <==> 6.0 <= rating < 8.0
    ensures s == Red <==> rating < 6.0
  {
    if rating >= 8.0 then Teal
    else if rating >= 6.0 then Amber
    else Red
  }

  function ScoreStyleRank(s: ScoreStyle): nat {
    match s
    case Red => 0
    case Amber => 1
    case Teal => 2
  }

  const TealCss: string := "color: #009A8E; font-weight: bold;"
  const AmberCss: string := "color: #d69e2e; font-weight: bold;"
  const RedCss: string := "color: #e53e3e; font-weight: bold;"

  function ScoreCss(s: ScoreStyle): string {
    match s
    case Teal => TealCss
    case Amber => AmberCss
    case Red => RedCss
  }

  /** `getScoreStyle`: the inline style of a score, each style exactly on its range. */
  function GetScoreStyle(rating: real): (css: string)
    ensures css == TealCss <==> rating >= 8.0
    ensures css == AmberCss <==> 6.0 <= rating < 8.0
    ensures css == RedCss <==> rating < 6.0
  {
    ScoreCss(ScoreStyleOf(rating))
  }

  /** A higher rating is never shown in a worse colour. */
  lemma ScoreStyleMonotone(rating: real, rating': real)
    requires rating <= rating'
    ensures ScoreStyleRank(ScoreStyleOf(rating)) <= ScoreStyleRank(ScoreStyleOf(rating'))
  {
  }

  /** `s.split('.')[0]`: the longest prefix of `s` without a full stop. */
  function BeforeFirstDot(s: string): (r: string)
    ensures |r| <= |s| && r == s[..|r|]
    ensures forall k :: 0 <= k < |r| ==> r[k] != '.'
    ensures |r| < |s| ==> s[|r|] == '.'
  {
    if |s| == 0 || s[0] == '.' then ""
    else [s[0]] + BeforeFirstDot(s[1..])
  }

  const NoRecommendation: string := "No recommendation available."

  /**
   * The snippet on a card: the recommendation up to its first full stop, with
   * the full stop; a missing or empty recommendation gives a fixed sentence.
   * Either way the snippet ends in a full stop and has no other.
   */
  function RecText(recommendation: Option<string>): (r: string)
    ensures |r| > 0 && r[|r| - 1] == '.'
    ensures forall k :: 0 <= k < |r| - 1 ==> r[k] != '.'
    ensures recommendation.None? || recommendation.value == "" ==> r == NoRecommendation
    ensures recommendation.Some? && recommendation.value != "" ==>
      var v := recommendation.value;
      |r| - 1 <= |v| && r[..|r| - 1] == v[..|r| - 1] && (|r| - 1 < |v| ==> v[|r| - 1] == '.')
  {
    if recommendation.Some? && recommendation.value != "" then
      BeforeFirstDot(recommendation.value) + "."
    else
      NoRecommendation
  }

  /** Example: only the first sentence is kept. */
  lemma RecTextKeepsFirstSentence()
    ensures RecText(Some("Ok. No.")) == "Ok."
  {
    var s := "Ok. No.";
    var b := BeforeFirstDot(s);
    assert s[0] != '.' && s[1] != '.' && s[2] == '.';
    assert |b| == 2;
    assert b == s[..2] == "Ok";
  }
}

=== FILE: mobile_menu.dfy ===
/**
 * The mobile navigation: the burger button and the overlay menu open and
 * close together, and the page body stops scrolling while the menu is open.
 * In-page anchor links scroll to their target and close the menu.
 */
module MobileMenu {

  const OverflowHidden: string := "hidden"

  /** The inline `overflow` style of the body for an open or closed menu. */
  function OverflowFor(open: bool): string {
    if open then OverflowHidden else ""
  }

  /** What a click on an in-page link does. */
  datatype AnchorOutcome =
    | DefaultNavigation          // the browser follows the link itself
    | ScrollTo(selector: string) // smooth scroll to the element the selector finds
    | NoTarget(selector: string) // navigation prevented, nothing found to scroll to

  /** The hrefs left to the browser: a bare `#` and `/#`. */
  predicate IsDefaultHref(href: string) {
    href == "#" || href == "/#"
  }

  predicate StartsWithSlashHash(href: string) {
    |href| >= 2 && href[..2] == "/#"
  }

  /**
   * `href.replace(/^\/#/, '#')`: a leading `/#` loses its slash; any other
   * href, including one with `/#` further in, is kept as it is.
   */
  function CleanHref(href: string): (clean: string)
    ensures StartsWithSlashHash(href) ==> "/" + clean == href && clean[0] == '#'
    ensures !StartsWithSlashHash(href) ==> clean == href
  {
    if StartsWithSlashHash(href) then "#" + href[2..] else href
  }

  /** Cleaning a cleaned href changes nothing. */
  lemma CleanHrefIdempotent(href: string)
    ensures CleanHref(CleanHref(href)) == CleanHref(href)
  {
    if StartsWithSlashHash(href) {
      assert CleanHref(href)[0] == '#';
    }
  }

  /** The links the click handler is attached to, as written: `a[href^="#"]`. */
  predicate SelectedAsWritten(href: string) {
    |href| > 0 && href[0] == '#'
  }

  /**
   * As written, a link such as `/#news` never gets the handler, and on every
   * link that does, the `/#` test and the rewrite have no effect.
   */
  lemma SlashHashLinksUnhandledAsWritten(href: string)
    ensures !SelectedAsWritten("/#news")
    ensures SelectedAsWritten(href) ==> href != "/#" && CleanHref(href) == href
  {
  }

  /** The links the handler is meant for: hrefs starting with `#` or with `/#`. */
  predicate Selected(href: string) {
    SelectedAsWritten(href) || StartsWithSlashHash(href)
  }

  /**
   * Every handled link that is not left to the browser becomes a fragment
   * selector `#name`; `/#news` scrolls to `#news`.
   */
  lemma SelectedLinksBecomeFragments(href: string)
    requires Selected(href) && !IsDefaultHref(href)
    ensures |CleanHref(href)| >= 2 && CleanHref(href)[0] == '#'
    ensures Selected("/#news") && CleanHref("/#news") == "#news"
  {
    if StartsWithSlashHash(href) {
      assert href != "/#";
      assert |href| > 2;
    }
    assert "/#news"[..2] == "/#";
  }

  class Menu {
    /** Whether the burger button carries the `active` class. */
    var burgerActive: bool
    /** Whether the overlay carries the `active` class. */
    var overlayActive: bool
    /** The inline `overflow` style of the page body. */
    var bodyOverflow: string

    /** Button and overlay agree, and the body is locked exactly while the overlay is open. */
    ghost predicate Valid()
      reads this
    {
      burgerActive == overlayActive && bodyOverflow == OverflowFor(overlayActive)
    }

    predicate IsOpen()
      reads this
    {
      overlayActive
    }

    /** A page loaded with the menu closed. */
    constructor ()
      ensures Valid() && !IsOpen()
    {
      burgerActive, overlayActive, bodyOverflow := false, false, "";
    }

    /** A click on the burger button toggles the menu. */
    method ToggleBurger()
      requires Valid()
      modifies this
      ensures Valid() && IsOpen() == !old(IsOpen())
      ensures bodyOverflow == OverflowHidden <==> IsOpen()
    {
      burgerActive := !burgerActive;
      overlayActive := !overlayActive;
      bodyOverflow := if overlayActive then OverflowHidden else "";
    }

    /** Closing, as a menu link, an outside click and an anchor scroll do. */
    method Close()
      requires Valid()
      modifies this
      ensures Valid() && !IsOpen() && bodyOverflow == ""
    {
      burgerActive := false;
      overlayActive := false;
      bodyOverflow := "";
    }

    /** A click on a link inside the mobile navigation closes the menu. */
    method ClickNavLink()
      requires Valid()
      modifies this
      ensures Valid() && !IsOpen() && bodyOverflow == ""
    {
      Close();
    }

    /**
     * A click on the overlay closes the menu only when it lands on the overlay
     * itself, not on an element inside it.
     */
    method ClickOverlay(onOverlayItself: bool)
      requires Valid()
      modifies this
      ensures Valid()
      ensures onOverlayItself ==> !IsOpen() && bodyOverflow == ""
      ensures !onOverlayItself ==> IsOpen() == old(IsOpen()) && bodyOverflow == old(bodyOverflow)
    {
      if onOverlayItself {
        Close();
      }
    }

    /**
     * The anchor click handler. `targetFound` is the document's answer to
     * `querySelector` for a selector.
     */
    method ClickAnchor(href: string, targetFound: string -> bool) returns (outcome: AnchorOutcome)
      requires Valid()
      modifies this
      ensures Valid()
      ensures IsDefaultHref(href) ==>
        outcome == DefaultNavigation && IsOpen() == old(IsOpen()) && bodyOverflow == old(bodyOverflow)
      ensures !IsDefaultHref(href) && targetFound(CleanHref(href)) ==>
        outcome == ScrollTo(CleanHref(href)) && !IsOpen() && bodyOverflow == ""
      ensures !IsDefaultHref(href) && !targetFound(CleanHref(href)) ==>
        outcome == NoTarget(CleanHref(href)) && IsOpen() == old(IsOpen()) && bodyOverflow == old(bodyOverflow)
    {
      if IsDefaultHref(href) {
        return DefaultNavigation;
      }
      var clean := CleanHref(href);
      if targetFound(clean) {
        outcome := ScrollTo(clean);
        Close();
      } else {
        outcome := NoTarget(clean);
      }
    }

    /**
     * A click on any link of the page: links the anchor handler is attached to
     * (taken as `#…` and `/#…`) run it; all others navigate normally.
     */
    method ClickLink(href: string, targetFound: string -> bool) returns (outcome: AnchorOutcome)
      requires Valid()
      modifies this
      ensures Valid()
      ensures !Selected(href) ==>
        outcome == DefaultNavigation && IsOpen() == old(IsOpen()) && bodyOverflow == old(bodyOverflow)
      ensures Selected(href) && IsDefaultHref(href) ==>
        outcome == DefaultNavigation && IsOpen() == old(IsOpen()) && bodyOverflow == old(bodyOverflow)
      ensures Selected(href) && !IsDefaultHref(href) && targetFound(CleanHref(href)) ==>
        outcome == ScrollTo(CleanHref(href)) && !IsOpen() && bodyOverflow == ""
      ensures Selected(href) && !IsDefaultHref(href) && !targetFound(CleanHref(href)) ==>
        outcome == NoTarget(CleanHref(href)) && IsOpen() == old(IsOpen()) && bodyOverflow == old(bodyOverflow)
      ensures outcome.ScrollTo? ==> Selected(href) && |outcome.selector| >= 2 && outcome.selector[0] == '#' && !IsOpen()
    {
      if !Selected(href) {
        return DefaultNavigation;
      }
      outcome := ClickAnchor(href, targetFound);
      if outcome.ScrollTo? {
        SelectedLinksBecomeFragments(href);
      }
    }
  }
}

=== FILE: upstream.dfy ===
/**
 * What the two serverless endpoints share: the review records a client
 * submits, the reply of the LLM completion service (an oracle: the model
 * says what the handlers do with any reply, not what the service answers),
 * and the error payloads of a failed request.
 */
module Upstream {
  import opened Wrappers

  /** One submitted review: `{rating, title?, text}`. */
  datatype Review = Review(rating: real, title: Option<string>, text: string)

  /**
   * The reply of the completion service to one call: a non-ok HTTP status
   * with the body it sent, an ok reply whose `content` array holds the text
   * of each content block, or no usable reply at all (the `fetch` rejected,
   * or the ok body was not JSON, so `json()` threw).
   */
  datatype Reply = Failed(body: string) | Completed(blocks: seq<string>) | Broken

  /**
   * The `error` member of a failure response: a message the handler wrote
   * itself, or the message of a JavaScript TypeError raised by reading a
   * member of `undefined`, or the message of the exception a rejected `fetch`
   * or a failed `json()` raises (their wording belongs to the JavaScript
   * engine).
   */
  datatype ErrorText = Message(text: string) | TypeErrorText | TransportErrorText

  const ClaudeErrorPrefix: string := "Claude API error: "

  /** The message thrown on a non-ok reply, carrying the upstream body. */
  function ClaudeError(body: string): (m: string)
    ensures |m| == |ClaudeErrorPrefix| + |body|
    ensures m[..|ClaudeErrorPrefix|] == ClaudeErrorPrefix && m[|ClaudeErrorPrefix|..] == body
  {
    ClaudeErrorPrefix + body
  }

  /** Whether a request's `reviews` member is truthy in length: present and non-empty. */
  predicate HasReviews(reviews: Option<seq<Review>>) {
    reviews.Some? && |reviews.value| > 0
  }

  /** JavaScript truthiness of an optional string: present and not empty. */
  predicate Truthy(s: Option<string>) {
    s.Some? && s.value != ""
  }
}

=== FILE: wrappers.dfy ===
/** The optional-value datatype used for the fields a JSON request may omit. */
module Wrappers {

  datatype Option<+T> = None | Some(value: T) {

    /** The wrapped value, or `default` when there is none. */
    function GetOr(default: T): T {
      match this
      case Some(v) => v
      case None => default
    }
  }
}
